=== FILE: README.md ===
# Data Science Salaries dashboard — a Dafny model

This project models the data side of a Dash dashboard of data-science
salaries, implemented in the single file `app.py`:

- **Cleaning.** The salary table is cleaned once at start-up:
  - "Data Engineer 2" is merged into "Data Engineer";
  - salaries outside an interquartile-range window `[lower, upper)` are trimmed;
  - "Israel" is relabelled "Palestine";
  - eight columns are kept.
- **Job options.** The sorted job-title list is built (`jobs_title`).
- **Views.** Every chart and card reads a year/job selection of that table and shapes it:
  - value counts;
  - group means;
  - top-N selections (`sort_values(ascending=False).head(n)`, sometimes reversed);
  - popularity percentages;
  - the two summary cards;
  - the per-year salary trend;
  - the scatter-or-bar choice.
- **Page callback.** `get_page_content` decides, for a URL path and the two selector values:
  - which selectors are visible;
  - which job titles the job selector offers;
  - whether the page shows its charts or the "job did not exist" alert.

The model is functional: a `Record` datatype per row, the table as a `seq`,
and pure functions with contracts.

- `seqs.dfy` (`Seqs`): order-preserving mask selection (`Where`), `unique()`
  (`Distinct`), `nunique()`, reversal, sums and means.
- `ordering.dfy` (`Ordering`): an insertion sort over any total preorder,
  top-N, and Python's string order.
- `salaries.dfy` (`Salaries`): the record types, the preparation pass, the
  initial job options and the year/job selectors.
- `views.dfy` (`Views`): the data behind every chart and card.
- `router.dfy` (`Router`): the page callback and the alert.

## Model

| member | source | states |
|---|---|---|
| Seqs.Where | app.py:29-30 | A boolean-mask selection keeps exactly the elements satisfying the mask, each as often as it occurs, in their original order (a subsequence). |
| Seqs.WhereUnique | app.py:29-30 | The mask selection is the only order-preserving selection that keeps exactly the satisfying elements with their multiplicities. |
| Seqs.Distinct | app.py:40 | `unique()` lists every element of the column exactly once and nothing else. |
| Seqs.CountDistinct | app.py:291 | `nunique()` is the number of distinct values of the column. |
| Seqs.Mean | app.py:292 | The mean is absent exactly for an empty column; otherwise it times the row count is the sum of the salaries. |
| Seqs.AverageBounds | app.py:292 | The mean of values lying in `[lo, hi)` lies in `[lo, hi)`. |
| Ordering.SortBy | app.py:475 | `sort_values` returns a permutation of its input ordered by the chosen key. |
| Ordering.Top | app.py:318 | `head(n)` after a descending sort keeps `min(n, len)` elements, all drawn from the input, in order. Nothing left out ranks above the last one kept, whether it is a value missing from the result or a dropped copy of a kept value. |
| Ordering.TopAscendingOrdered | app.py:206 | `head(n)[::-1]` lists the kept elements lowest-ranked first. |
| Ordering.TopAscendingExcluded | app.py:206 | Nothing left out of `head(n)[::-1]`, neither a missing value nor a dropped copy, ranks above its first element, and something is left out only when `n` elements are kept. |
| Ordering.LexLeTotalPreorder | app.py:40 | Python's string order is total and transitive. |
| Ordering.LexLeAntisymmetric | app.py:40 | Two strings ordered both ways are equal. |
| Ordering.SortedStringsUnique | app.py:40 | Two duplicate-free lists of strings, both in Python's string order and holding the same strings, are equal: the sorted title list is unique. |
| Ordering.SortStrings | app.py:40 | `sorted` on strings returns a permutation in Python's string order. |
| Salaries.TrimOutliers | app.py:29-30 | The outlier filter keeps exactly the rows with `lower <= salary < upper`, each as often as it occurs, in order. |
| Salaries.Prepare | app.py:21-36 | After preparation every salary lies in `[lower, upper)`, no title is "Data Engineer 2" and no location is "Israel". |
| Salaries.PrepareKeepsInBoundsRows | app.py:21-36 | Preparation drops only the out-of-bounds rows and reorders nothing: the result is the in-bounds raw rows, in order, each relabelled and projected. |
| Salaries.RetrimRemovesNothing | app.py:29-30 | Re-applying the same bounds to the prepared table removes nothing. |
| Salaries.PrepareIdempotent | app.py:21-36 | Preparing the prepared table again with the same bounds gives it back unchanged. |
| Salaries.SortedTitles | app.py:40 | The title list is sorted, free of duplicates, and holds exactly the titles of the table. |
| Salaries.SortedTitlesDetermined | app.py:40 | Two tables carrying the same titles give the same title list. |
| Salaries.InitialJobOptions | app.py:40-41 | The start-up job options are "All" followed by the sorted, duplicate-free titles of the cleaned table. |
| Salaries.YearScope | app.py:199-204 | The year filter keeps exactly the rows of the chosen year (all rows for "all"), in order. |
| Salaries.JobScope | app.py:643-647 | The job filter keeps exactly the rows of the chosen title (all rows for "All"), in order. |
| Salaries.Selection | app.py:304-316 | The year filter followed by the job filter keeps exactly the rows satisfying both, in order and with multiplicities. |
| Salaries.SelectionExact | app.py:304-316 | The two successive filters equal one mask selection by the conjunction of both conditions. |
| Views.GroupCounts | app.py:551 | `value_counts()` gives one (label, row count) pair per distinct label, every count positive. |
| Views.GroupMeans | app.py:249 | `groupby(...).mean()` gives one (label, mean salary of that label's rows) pair per distinct label. |
| Views.GroupCountsTotal | app.py:551 | The counts of `value_counts()` add up to the number of rows. |
| Views.TopDemandedJobs | app.py:206 | The top demanded jobs are `min(10, distinct titles)` distinct titles with their counts in the year scope, ascending. No title left out is more frequent than the first one shown, and titles are left out only when ten are shown. |
| Views.HighestPaidJobs | app.py:249 | The highest-paid jobs are `min(10, distinct titles)` distinct titles with their mean salaries, ascending. No title left out has a higher mean than the first one shown. |
| Views.Percentages | app.py:212 | Each popularity percentage is the label's count as a share of the total of the counts given, times 100. |
| Views.PercentagesBounds | app.py:212 | Every popularity percentage lies in (0, 100]. |
| Views.PercentagesSum | app.py:212 | The popularity percentages of a non-empty Series add up to 100. |
| Views.TopDemandedShares | app.py:212 | The "Top Demanded Job" percentages are computed against the total of the ten counts shown, not of the whole year scope. |
| Views.TopDemandedSharesNormalised | app.py:212-218 | The "Top Demanded Job" percentages lie in (0, 100] and add up to 100 when any title is shown. |
| Views.TopLocations | app.py:318 | The top locations are `min(5, distinct locations)` distinct locations of the selection with their counts, most frequent first. No location left out is more frequent than the last one shown. |
| Views.TopLocationShares | app.py:339 | The "Top Location of Jobs" percentages are computed against the total of the five counts shown. |
| Views.TopLocationSharesNormalised | app.py:339-344 | The "Top Location of Jobs" percentages lie in (0, 100] and add up to 100 when any location is shown. |
| Views.TopLocationsChart | app.py:320 | The top-locations chart is a scatter plot exactly when the selection has one or two distinct locations. |
| Views.SalaryByLocation | app.py:389 | Salary by location keeps `min(10, distinct locations)` distinct locations with their mean salaries, ascending. No location left out has a higher mean than the first one shown. |
| Views.SalaryByLocationChart | app.py:391 | The salary-by-location chart is a scatter plot exactly when the selection has one to three distinct locations. |
| Views.ExperienceSalary | app.py:475 | Every experience level of the selection appears once with its mean salary, highest mean first. |
| Views.ExperienceSalaryChart | app.py:477 | The experience chart is a scatter plot exactly when the selection has one or two experience levels. |
| Views.LevelCounts | app.py:551 | `value_counts()` lists every label with its row count exactly once, most frequent first, the counts adding up to the row count. |
| Views.ExperienceCounts | app.py:551 | The experience pie lists every experience level of the selection exactly once with its row count, and nothing else, most frequent first. The counts add up to the selection's size. |
| Views.ExpertiseCounts | app.py:604 | The expertise pie lists every expertise level of the selection exactly once with its row count, and nothing else, most frequent first. The counts add up to the selection's size. |
| Views.SalaryTrend | app.py:649 | The salary trend gives one (year, mean salary) pair per distinct year of the job's rows, with years strictly ascending. |
| Views.SummaryCards | app.py:291-292 | The job card is the number of distinct titles of the year scope. The salary card is the scope's mean salary, absent exactly when the scope is empty. |
| Views.CardsMatchJobOptions | app.py:291 | Over all years, the job card equals the length of the start-up job options minus one (the "All" entry). |
| Views.CardsWithinBounds | app.py:292 | On a prepared table the average-salary card lies within the trimming bounds. |
| Router.ScopeJobOptions | app.py:815-816 | The Locations/Experience options are "All" followed by the sorted, duplicate-free titles of the year scope. |
| Router.HomeJobOptions | app.py:697-704 | On the Home page with year "all" the options are the sorted distinct titles with no "All" prepended. With a specific year "All" comes first, followed by that year's titles, sorted and without duplicates. |
| Router.LocationsBody | app.py:775-818 | The Locations body is the alert carrying (job, year) exactly when the job is not among the options. Otherwise it carries the top locations, their chart kind and the salary by location with its chart kind for that year and job, and the popularity percentages exactly when the top locations are drawn as bars. |
| Router.ExperienceBody | app.py:876-926 | The Experience body is the alert carrying (job, year) exactly when the job is not among the options. Otherwise it carries the salary by experience with its chart kind, the experience pie and the expertise pie, each for that year and job. |
| Router.TrendBody | app.py:993-1015 | The Time Series body is the alert exactly when the job is not among the whole table's options; otherwise it is that job's salary trend. |
| Router.PageContent | app.py:695-1038 | Each path decides both menu visibilities and the job options: "/" shows the year menu only, Locations and Experience show both, Time Series shows the job menu only. The Home body is the chosen year's cards, top demanded jobs with their percentages and highest-paid jobs; each other path shows its own page body. An unknown path produces nothing. |
| Router.OfferedExactlyWhenSelected | app.py:815-817 | A specific job is offered for a year exactly when some row of that year carries it. |
| Router.AlertExactlyWhenSelectionEmpty | app.py:817-818 | On Locations and Experience the alert appears exactly when a specific job was chosen and the selection is empty. |
| Router.TimeSeriesIgnoresYear | app.py:995-999 | The Time Series options and charts do not depend on the year selector; only the alert quotes the year. |
| Router.HomeIgnoresJob | app.py:696-773 | The Home page's output does not depend on the job selector. |

## Left out

- Salaries.Prepare: the merge of "Data Engineer 2" and the "Israel" relabelling (app.py:21, 32) are chained in-place `replace` calls on a column. They change the table only under pandas' behaviour before Copy-on-Write (before pandas 3.0); under Copy-on-Write both lines leave the table unchanged. The model assumes the earlier behaviour, in which both relabellings take effect.
- Reading the CSV file and renaming its columns (app.py:12, 19): the model starts from rows with the eight named columns. Columns never read are kept as an opaque `otherColumns` list and dropped by the projection.
- Computing the quartile bounds with pandas' interpolated `quantile` (app.py:24-27): floating-point code inside a library. `lower` and `upper` are parameters.
- The currency text of the salary card, `f"${avg:0,.0f}"` (app.py:293): float rounding and digit grouping. The card holds the exact mean, or `None` where pandas would give NaN for an empty year.
- All Dash and plotly presentation: layout, styles, colours, figure construction, hover text, the two-decimal rounding of the percentage labels, and the pie's own percentage computation. The Locations body carries the popularity percentages only when the top locations are drawn as bars; the scatter plots the raw counts. The Home body keeps both the top-ten title counts and the percentages computed from them, although its bar chart shows only the percentages.
- The order pandas gives to ties in `sort_values` and `value_counts`. The model sorts by insertion, and the contracts state the top-N and ordering properties only up to ties.
- Seqs.Distinct: the contract states which elements `unique()` returns, not that they come in order of first appearance. Every view sorts the groups built from it, or only counts it, so no view's contract depends on that order.
- Views.PercentagesSum: the sum of 100 is stated over exact reals, and so are Views.TopDemandedSharesNormalised and Views.TopLocationSharesNormalised. The dashboard computes the percentages in float64, and their sum can differ from 100 by rounding.
- Floating point in general: group means, the average-salary card and the percentages are exact reals in the model. The dashboard computes them in float64, so its values can differ from the model's by rounding.
- Views.TopDemandedJobs: which of several equally frequent titles fill the last places is not stated, because pandas does not fix it. The same holds for Views.HighestPaidJobs, Views.TopLocations and Views.SalaryByLocation.
- Views.GroupAverage carries no contract of its own. Each mean's relation to its rows is stated through `Seqs.Average`, which it applies to the rows of the group.
- The callback wiring, the server start-up and the sidebar (app.py:44-191, 682-694, 1041-1042).
- The alert's text and styling (app.py:78-94): the model keeps the job and year it quotes.
- The title of the line chart and the string form of the years on its axis (app.py:651-659): presentation.

## Behaviour worth noting

- The popularity percentages (app.py:212, 339) are shares of the total of the counts shown (ten titles, five locations), not of the filtered row count. Over exact reals they add up to 100.
- The five top locations (app.py:318) are listed most frequent first: unlike the top-ten charts there is no `[::-1]`.
- The scatter encodings (app.py:320, 391, 477) also require at least one group. An empty selection gets bars.
- The Home page with year "all" (app.py:697-698) offers no "All" entry, while every other page and year prepends it.
- Ties in the top-N selections are not broken by any key the code chooses. The contracts leave the order of tied entries open.

=== FILE: ordering.dfy ===
/** Orderings used by the dashboard: an insertion sort over any total
    preorder, the top-N selection built on it (pandas
    `sort_values(ascending=False).head(n)`), and Python's code-point
    lexicographic order on strings (what `sorted` applies to job titles). */
module Ordering {
  import opened Seqs

  /** Every two elements are comparable. */
  ghost predicate Total<T(!new)>(le: (T, T) -> bool) {
    forall a, b :: le(a, b) || le(b, a)
  }

  ghost predicate Transitive<T(!new)>(le: (T, T) -> bool) {
    forall a, b, c :: le(a, b) && le(b, c) ==> le(a, c)
  }

  /** The orders we sort by: total and transitive, ties allowed. */
  ghost predicate TotalPreorder<T(!new)>(le: (T, T) -> bool) {
    Total(le) && Transitive(le)
  }

  /** Every element is `le` every later element. */
  predicate SortedBy<T>(xs: seq<T>, le: (T, T) -> bool) {
    forall i, j :: 0 <= i < j < |xs| ==> le(xs[i], xs[j])
  }

  /** Inserts `x` in front of the first element it is `le`, so that it
      precedes the elements it ties with. */
  function Insert<T(!new)>(x: T, s: seq<T>, le: (T, T) -> bool): (r: seq<T>)
    requires TotalPreorder(le)
    requires SortedBy(s, le)
    ensures SortedBy(r, le)
    ensures multiset(r) == multiset(s) + multiset{x}
  {
    if |s| == 0 then [x]
    else if le(x, s[0]) then
      forall j | 0 <= j < |s| ensures le(x, s[j]) {
        if j > 0 {
          assert le(s[0], s[j]);
        }
      }
      ConsSorted(x, s, le);
      [x] + s
    else
      assert s == [s[0]] + s[1..];
      var rest := Insert(x, s[1..], le);
      forall j | 0 <= j < |rest| ensures le(s[0], rest[j]) {
        assert rest[j] in multiset(rest);
        if rest[j] != x {
          assert rest[j] in s[1..];
        }
      }
      ConsSorted(s[0], rest, le);
      [s[0]] + rest
  }

  lemma ConsSorted<T>(y: T, rest: seq<T>, le: (T, T) -> bool)
    requires SortedBy(rest, le)
    requires forall j :: 0 <= j < |rest| ==> le(y, rest[j])
    ensures SortedBy([y] + rest, le)
  {
    forall i, j | 0 <= i < j < |rest| + 1 ensures le(([y] + rest)[i], ([y] + rest)[j]) {
      if i > 0 {
        assert ([y] + rest)[i] == rest[i - 1];
      }
    }
  }

  /** Insertion sort: a permutation of `xs` ordered by `le`. The contracts
      leave the relative order of elements that tie open. */
  function SortBy<T(!new)>(xs: seq<T>, le: (T, T) -> bool): (r: seq<T>)
    requires TotalPreorder(le)
    ensures SortedBy(r, le)
    ensures multiset(r) == multiset(xs)
    ensures |r| == |xs|
  {
    if |xs| == 0 then []
    else
      assert xs == [xs[0]] + xs[1..];
      Insert(xs[0], SortBy(xs[1..], le), le)
  }

  lemma PrefixMultiset<T>(s: seq<T>, m: nat)
    requires m <= |s|
    ensures multiset(s[..m]) <= multiset(s)
    ensures forall x :: x in s && x !in s[..m] ==> exists i :: m <= i < |s| && s[i] == x
    ensures forall x :: multiset(s[..m])[x] < multiset(s)[x] ==> exists i :: m <= i < |s| && s[i] == x
  {
    assert s == s[..m] + s[m..];
    forall x | multiset(s[..m])[x] < multiset(s)[x]
      ensures exists i :: m <= i < |s| && s[i] == x
    {
      assert x in multiset(s[m..]);
      assert x in s[m..];
      var k :| 0 <= k < |s[m..]| && s[m..][k] == x;
      assert s[m + k] == x;
    }
    forall x | x in s && x !in s[..m]
      ensures exists i :: m <= i < |s| && s[i] == x
    {
      var k :| 0 <= k < |s| && s[k] == x;
    }
  }

  /** The first `n` elements after sorting by `le`, where `le(a, b)` means
      `a` ranks at least as high as `b`. Which of several tied elements is
      kept is not part of the contract: only that nothing left out, be it a
      value missing from the result or a dropped copy of a kept one, ranks
      strictly above the last element kept. */
  function Top<T(!new)>(xs: seq<T>, le: (T, T) -> bool, n: nat): (r: seq<T>)
    requires TotalPreorder(le)
    ensures |r| == Min(n, |xs|)
    ensures multiset(r) <= multiset(xs)
    ensures SortedBy(r, le)
    ensures forall x :: n > 0 && x in xs && x !in r ==> |r| == n && le(r[n - 1], x)
    ensures forall x :: n > 0 && multiset(r)[x] < multiset(xs)[x] ==> |r| == n && le(r[n - 1], x)
  {
    var s := SortBy(xs, le);
    var m := Min(n, |xs|);
    PrefixMultiset(s, m);
    assert forall x :: x in xs ==> x in s by {
      forall x | x in xs ensures x in s {
        assert x in multiset(xs);
      }
    }
    s[..m]
  }

  /** `head(n)[::-1]`: the top `n` listed lowest-ranked first. */
  function TopAscending<T(!new)>(xs: seq<T>, le: (T, T) -> bool, n: nat): (r: seq<T>)
    requires TotalPreorder(le)
    ensures |r| == Min(n, |xs|)
    ensures multiset(r) <= multiset(xs)
  {
    Reverse(Top(xs, le, n))
  }

  /** Reversing a sorted sequence reverses the order. */
  lemma ReverseSorted<T>(s: seq<T>, le: (T, T) -> bool)
    requires SortedBy(s, le)
    ensures forall i, j :: 0 <= i < j < |Reverse(s)| ==> le(Reverse(s)[j], Reverse(s)[i])
  {
    var r := Reverse(s);
    forall i, j | 0 <= i < j < |r| ensures le(r[j], r[i]) {
      assert r[j] == s[|s| - 1 - j] && r[i] == s[|s| - 1 - i];
    }
  }

  /** The reversed top `n` ascends: each element is outranked by every later one. */
  lemma TopAscendingOrdered<T(!new)>(xs: seq<T>, le: (T, T) -> bool, n: nat)
    requires TotalPreorder(le)
    ensures forall i, j :: 0 <= i < j < |TopAscending(xs, le, n)| ==>
              le(TopAscending(xs, le, n)[j], TopAscending(xs, le, n)[i])
  {
    ReverseSorted(Top(xs, le, n), le);
  }

  /** Nothing left out of the reversed top `n`, neither a missing value nor
      a dropped copy, ranks above its first element. */
  lemma TopAscendingExcluded<T(!new)>(xs: seq<T>, le: (T, T) -> bool, n: nat)
    requires TotalPreorder(le)
    ensures forall x :: n > 0 && x in xs && x !in TopAscending(xs, le, n) ==>
              |TopAscending(xs, le, n)| == n && le(TopAscending(xs, le, n)[0], x)
    ensures forall x :: n > 0 && multiset(TopAscending(xs, le, n))[x] < multiset(xs)[x] ==>
              |TopAscending(xs, le, n)| == n && le(TopAscending(xs, le, n)[0], x)
  {
    var top := Top(xs, le, n);
    var r := TopAscending(xs, le, n);
    assert r == Reverse(top);
    forall x | n > 0 && x in xs && x !in r ensures |r| == n && le(r[0], x) {
      assert x !in multiset(r);
      assert x !in top;
      assert r[0] == top[n - 1];
    }
    forall x | n > 0 && multiset(r)[x] < multiset(xs)[x] ensures |r| == n && le(r[0], x) {
      assert multiset(top)[x] < multiset(xs)[x];
      assert r[0] == top[n - 1];
    }
  }

  /** Python's string order: code point by code point, a proper prefix
      first. */
  predicate LexLe(a: string, b: string)
    decreases |a|
  {
    |a| == 0 || (|b| > 0 && (a[0] < b[0] || (a[0] == b[0] && LexLe(a[1..], b[1..]))))
  }

  lemma {:induction false} LexLeTotal(a: string, b: string)
    ensures LexLe(a, b) || LexLe(b, a)
    decreases |a|
  {
    if |a| > 0 && |b| > 0 && a[0] == b[0] {
      LexLeTotal(a[1..], b[1..]);
    }
  }

  lemma {:induction false} LexLeTransitive(a: string, b: string, c: string)
    requires LexLe(a, b) && LexLe(b, c)
    ensures LexLe(a, c)
    decreases |a|
  {
    if |a| > 0 && a[0] == b[0] && b[0] == c[0] {
      LexLeTransitive(a[1..], b[1..], c[1..]);
    }
  }

  lemma {:induction false} LexLeAntisymmetric(a: string, b: string)
    requires LexLe(a, b) && LexLe(b, a)
    ensures a == b
    decreases |a|
  {
    if |a| > 0 {
      LexLeAntisymmetric(a[1..], b[1..]);
      assert a == [a[0]] + a[1..];
      assert b == [b[0]] + b[1..];
    }
  }

  lemma LexLeTotalPreorder()
    ensures TotalPreorder(LexLe)
  {
    forall a, b ensures LexLe(a, b) || LexLe(b, a) {
      LexLeTotal(a, b);
    }
    forall a, b, c | LexLe(a, b) && LexLe(b, c) ensures LexLe(a, c) {
      LexLeTransitive(a, b, c);
    }
  }

  /** Python `sorted` on a list of strings. */
  function SortStrings(xs: seq<string>): (r: seq<string>)
    ensures SortedBy(r, LexLe)
    ensures multiset(r) == multiset(xs)
  {
    LexLeTotalPreorder();
    SortBy(xs, LexLe)
  }

  lemma NoElementsEmpty<T>(a: seq<T>, b: seq<T>)
    ensures |a| == 0 && (forall s :: s in a <==> s in b) ==> |b| == 0
  {
    if |b| > 0 {
      assert b[0] in b;
    }
  }

  /** Python's string order admits only one duplicate-free sorted list of a
      given set of strings. */
  lemma {:induction false} SortedStringsUnique(a: seq<string>, b: seq<string>)
    requires SortedBy(a, LexLe) && NoDups(a)
    requires SortedBy(b, LexLe) && NoDups(b)
    requires forall s :: s in a <==> s in b
    ensures a == b
    decreases |a|
  {
    NoElementsEmpty(a, b);
    if |a| > 0 {
      assert a[0] in b;
      var j :| 0 <= j < |b| && b[j] == a[0];
      assert LexLe(b[0], a[0]) by {
        if j > 0 {
          assert LexLe(b[0], b[j]);
        } else {
          LexLeTotal(a[0], a[0]);
        }
      }
      assert b[0] in a;
      var i :| 0 <= i < |a| && a[i] == b[0];
      assert LexLe(a[0], b[0]) by {
        if i > 0 {
          assert LexLe(a[0], a[i]);
        } else {
          LexLeTotal(b[0], b[0]);
        }
      }
      LexLeAntisymmetric(a[0], b[0]);
      forall s ensures s in a[1..] <==> s in b[1..] {
        assert s in a[1..] <==> s in a && s != a[0] by {
          if s in a[1..] {
            var i :| 0 <= i < |a[1..]| && a[1..][i] == s;
            assert a[i + 1] == s;
          }
          if s in a && s != a[0] {
            var i :| 0 <= i < |a| && a[i] == s;
            assert a[1..][i - 1] == s;
          }
        }
        assert s in b[1..] <==> s in b && s != b[0] by {
          if s in b[1..] {
            var i :| 0 <= i < |b[1..]| && b[1..][i] == s;
            assert b[i + 1] == s;
          }
          if s in b && s != b[0] {
            var i :| 0 <= i < |b| && b[i] == s;
            assert b[1..][i - 1] == s;
          }
        }
      }
      SortedStringsUnique(a[1..], b[1..]);
      assert a == [a[0]] + a[1..];
      assert b == [b[0]] + b[1..];
    }
  }
}

=== FILE: router.dfy ===
/** The page callback (app.py lines 695-1038): for a URL path and the two
    selector values it decides which selectors are visible, which job titles
    the job selector offers, and whether the page shows its charts or the
    "job did not exist" alert (app.py lines 78-94). */
module Router {
  import opened Seqs
  import opened Ordering
  import opened Salaries
  import opened Views

  /** The sidebar's page paths (the spelling of the Experience path is the
      application's own). */
  const HomePath: string := "/"
  const LocationsPath: string := "/Locations"
  const ExperiencePath: string := "/experinces"
  const TimeSeriesPath: string := "/TimeSeries"

  predicate KnownPath(path: string) {
    path == HomePath || path == LocationsPath || path == ExperiencePath || path == TimeSeriesPath
  }

  /** What the page area shows: the alert, carrying the job and year it
      complains about, or the data behind each chart and card of a page. */
  datatype Body =
    | Alert(job: string, year: YearChoice)
    | HomeCharts(
        cards: Cards,
        topJobs: seq<(string, int)>,
        topJobShares: seq<(string, real)>,
        highestPaidJobs: seq<(string, real)>)
    | LocationCharts(
        topLocations: seq<(string, int)>,
        topLocationShares: Option<seq<(string, real)>>,
        topLocationsChart: Chart,
        salaryByLocation: seq<(string, real)>,
        salaryByLocationChart: Chart)
    | ExperienceCharts(
        salaryByExperience: seq<(string, real)>,
        salaryByExperienceChart: Chart,
        experienceCounts: seq<(string, int)>,
        expertiseCounts: seq<(string, int)>)
    | TrendChart(trendJob: string, trend: seq<(int, real)>)

  /** The callback's four outputs: the two selector visibilities, the job
      selector's options and the page body. */
  datatype Page = Page(yearMenuShown: bool, jobMenuShown: bool, jobOptions: seq<string>, body: Body)

  /** `jobs_title` on the Locations and Experience pages: "All" followed by
      the sorted distinct titles of the year scope. */
  function ScopeJobOptions(t: Table, year: YearChoice): (r: seq<string>)
    ensures |r| > 0 && r[0] == AllJobs
    ensures forall s :: s in r[1..] <==> s in Map(YearScope(t, year), Title)
    ensures SortedBy(r[1..], LexLe) && NoDups(r[1..])
  {
    [AllJobs] + SortedTitles(YearScope(t, year))
  }

  /** `jobs_title` on the Home page. With year "all" it is the sorted
      distinct titles of the whole table and "All" is not prepended; with a
      year it is "All" followed by that year's sorted distinct titles. */
  function HomeJobOptions(t: Table, year: YearChoice): (r: seq<string>)
    ensures year.AllYears? ==>
              (forall s :: s in r <==> s in Map(t, Title)) && SortedBy(r, LexLe) && NoDups(r)
    ensures year.InYear? ==>
              |r| > 0 && r[0] == AllJobs && (forall s :: s in r[1..] <==> s in Map(YearScope(t, year), Title))
              && SortedBy(r[1..], LexLe) && NoDups(r[1..])
  {
    if year.AllYears? then SortedTitles(t)
    else ScopeJobOptions(t, year)
  }

  /** The Locations page body: the alert when the job is not offered for
      the year, else its chart inputs. The popularity percentages are there
      only when the top locations are drawn as bars; the scatter plots the
      raw counts. */
  function LocationsBody(t: Table, year: YearChoice, job: string): (b: Body)
    ensures b.Alert? || b.LocationCharts?
    ensures b.Alert? <==> job !in ScopeJobOptions(t, year)
    ensures b.Alert? ==> b.job == job && b.year == year
    ensures b.LocationCharts? ==> b.topLocations == TopLocations(t, year, job)
    ensures b.LocationCharts? ==> b.topLocationsChart == TopLocationsChart(t, year, job)
    ensures b.LocationCharts? ==>
              b.salaryByLocation == SalaryByLocation(t, year, job)
              && b.salaryByLocationChart == SalaryByLocationChart(t, year, job)
    ensures b.LocationCharts? ==>
              (b.topLocationShares.Some? <==> b.topLocationsChart == Bars)
              && (b.topLocationShares.Some? ==> b.topLocationShares.value == TopLocationShares(t, year, job))
  {
    if job !in ScopeJobOptions(t, year) then Alert(job, year)
    else
      var chart := TopLocationsChart(t, year, job);
      LocationCharts(
        TopLocations(t, year, job),
        if chart == Bars then Some(TopLocationShares(t, year, job)) else None,
        chart,
        SalaryByLocation(t, year, job),
        SalaryByLocationChart(t, year, job))
  }

  /** The Experience page body: the alert when the job is not offered for
      the year, else its chart inputs. */
  function ExperienceBody(t: Table, year: YearChoice, job: string): (b: Body)
    ensures b.Alert? || b.ExperienceCharts?
    ensures b.Alert? <==> job !in ScopeJobOptions(t, year)
    ensures b.Alert? ==> b.job == job && b.year == year
    ensures b.ExperienceCharts? ==>
              b.salaryByExperience == ExperienceSalary(t, year, job)
              && b.salaryByExperienceChart == ExperienceSalaryChart(t, year, job)
              && b.experienceCounts == ExperienceCounts(t, year, job)
              && b.expertiseCounts == ExpertiseCounts(t, year, job)
  {
    if job !in ScopeJobOptions(t, year) then Alert(job, year)
    else ExperienceCharts(
      ExperienceSalary(t, year, job),
      ExperienceSalaryChart(t, year, job),
      ExperienceCounts(t, year, job),
      ExpertiseCounts(t, year, job))
  }

  /** The Time Series page body: its options come from the whole table,
      and only the alert mentions the year. */
  function TrendBody(t: Table, year: YearChoice, job: string): (b: Body)
    ensures b.Alert? || b.TrendChart?
    ensures b.Alert? <==> job !in InitialJobOptions(t)
    ensures b.Alert? ==> b.job == job && b.year == year
    ensures b.TrendChart? ==> b.trendJob == job && b.trend == SalaryTrend(t, job)
  {
    if job !in InitialJobOptions(t) then Alert(job, year)
    else TrendChart(job, SalaryTrend(t, job))
  }

  /** `get_page_content`; `None` for a path no branch handles. */
  function PageContent(t: Table, path: string, year: YearChoice, job: string): (r: Option<Page>)
    ensures r.Some? <==> KnownPath(path)
    ensures path == HomePath ==>
              r.Some? && r.value.yearMenuShown && !r.value.jobMenuShown
              && r.value.jobOptions == HomeJobOptions(t, year)
              && r.value.body == HomeCharts(SummaryCards(t, year), TopDemandedJobs(t, year),
                                            TopDemandedShares(t, year), HighestPaidJobs(t, year))
    ensures path == LocationsPath || path == ExperiencePath ==>
              r.Some? && r.value.yearMenuShown && r.value.jobMenuShown
              && r.value.jobOptions == ScopeJobOptions(t, year)
              && (r.value.body.Alert? <==> job !in ScopeJobOptions(t, year))
    ensures path == LocationsPath ==>
              r.Some? && (r.value.body.Alert? || r.value.body.LocationCharts?)
              && r.value.body == LocationsBody(t, year, job)
    ensures path == ExperiencePath ==>
              r.Some? && (r.value.body.Alert? || r.value.body.ExperienceCharts?)
              && r.value.body == ExperienceBody(t, year, job)
    ensures path == TimeSeriesPath ==>
              r.Some? && !r.value.yearMenuShown && r.value.jobMenuShown
              && r.value.jobOptions == InitialJobOptions(t)
              && (r.value.body.Alert? <==> job !in InitialJobOptions(t))
              && (r.value.body.Alert? || r.value.body.TrendChart?)
              && r.value.body == TrendBody(t, year, job)
    ensures r.Some? && r.value.body.Alert? ==> r.value.body.job == job && r.value.body.year == year
  {
    if path == HomePath then
      Some(Page(true, false, HomeJobOptions(t, year),
                HomeCharts(SummaryCards(t, year), TopDemandedJobs(t, year),
                           TopDemandedShares(t, year), HighestPaidJobs(t, year))))
    else if path == LocationsPath then
      Some(Page(true, true, ScopeJobOptions(t, year), LocationsBody(t, year, job)))
    else if path == ExperiencePath then
      Some(Page(true, true, ScopeJobOptions(t, year), ExperienceBody(t, year, job)))
    else if path == TimeSeriesPath then
      Some(Page(false, true, InitialJobOptions(t), TrendBody(t, year, job)))
    else None
  }

  /** A job title other than "All" is offered for a year exactly when some
      row of that year carries it. */
  lemma OfferedExactlyWhenSelected(t: Table, year: YearChoice, job: string)
    requires job != AllJobs
    ensures job in ScopeJobOptions(t, year) <==> |Selection(t, year, job)| > 0
  {
    if job in ScopeJobOptions(t, year) {
      OfferedOnlyWhenSelected(t, year, job);
    }
    if |Selection(t, year, job)| > 0 {
      SelectedIsOffered(t, year, job);
    }
  }

  lemma OfferedOnlyWhenSelected(t: Table, year: YearChoice, job: string)
    requires job != AllJobs && job in ScopeJobOptions(t, year)
    ensures |Selection(t, year, job)| > 0
  {
    var scope := YearScope(t, year);
    var options := ScopeJobOptions(t, year);
    assert options == [AllJobs] + options[1..];
    assert job in Map(scope, Title);
    var i :| 0 <= i < |scope| && Map(scope, Title)[i] == job;
    assert scope[i] in Selection(t, year, job);
  }

  lemma SelectedIsOffered(t: Table, year: YearChoice, job: string)
    ensures |Selection(t, year, job)| > 0 ==> job in ScopeJobOptions(t, year)
  {
    if |Selection(t, year, job)| == 0 {
      return;
    }
    var scope := YearScope(t, year);
    var row := Selection(t, year, job)[0];
    assert row in scope;
    var i :| 0 <= i < |scope| && scope[i] == row;
    if job != AllJobs {
      assert Map(scope, Title)[i] == job;
      assert job in ScopeJobOptions(t, year)[1..];
    }
  }

  /** On the Locations and Experience pages the alert appears exactly when a
      specific job was chosen and the year has no row with that title, that
      is when the selection the charts would summarise is empty. */
  lemma AlertExactlyWhenSelectionEmpty(t: Table, path: string, year: YearChoice, job: string)
    requires path == LocationsPath || path == ExperiencePath
    ensures PageContent(t, path, year, job).value.body.Alert? <==>
              job != AllJobs && |Selection(t, year, job)| == 0
  {
    if job != AllJobs {
      OfferedExactlyWhenSelected(t, year, job);
    }
  }

  /** The Time Series page reads the whole table: apart from the year the
      alert quotes, its outputs do not depend on the year selector. */
  lemma TimeSeriesIgnoresYear(t: Table, year1: YearChoice, year2: YearChoice, job: string)
    ensures PageContent(t, TimeSeriesPath, year1, job).value.jobOptions
         == PageContent(t, TimeSeriesPath, year2, job).value.jobOptions
    ensures PageContent(t, TimeSeriesPath, year1, job).value.body.Alert?
         == PageContent(t, TimeSeriesPath, year2, job).value.body.Alert?
    ensures !PageContent(t, TimeSeriesPath, year1, job).value.body.Alert? ==>
              PageContent(t, TimeSeriesPath, year1, job) == PageContent(t, TimeSeriesPath, year2, job)
  {
  }

  /** The Home page hides the job selector and its content does not depend
      on it. */
  lemma HomeIgnoresJob(t: Table, year: YearChoice, job1: string, job2: string)
    ensures PageContent(t, HomePath, year, job1) == PageContent(t, HomePath, year, job2)
  {
  }
}

=== FILE: salaries.dfy ===
/** The salary table and its one-time preparation (app.py lines 12-41):
    label canonicalisation, interquartile-range outlier trimming and
    projection to the eight columns the dashboard uses; then the year and
    job selectors every view applies before aggregating. */
module Salaries {
  import opened Seqs
  import opened Ordering

  /** A row as read from the CSV file, after column names lose their spaces.
      `otherColumns` stands for the columns the dashboard never reads
      (dropped by the projection). */
  datatype RawRecord = RawRecord(
    jobTitle: string,
    employmentType: string,
    experienceLevel: string,
    expertiseLevel: string,
    companyLocation: string,
    salaryInUsd: int,
    companySize: string,
    year: int,
    otherColumns: seq<string>)

  /** A row of the prepared table: the eight selected columns. */
  datatype Record = Record(
    jobTitle: string,
    employmentType: string,
    experienceLevel: string,
    expertiseLevel: string,
    companyLocation: string,
    salaryInUsd: int,
    companySize: string,
    year: int)

  type Table = seq<Record>

  /** The job-title spelling that is merged into `MergedJobTitle`. */
  const DuplicateJobTitle: string := "Data Engineer 2"
  const MergedJobTitle: string := "Data Engineer"
  /** The company location that is relabelled to `RelabelledLocation`. */
  const ReplacedLocation: string := "Israel"
  const RelabelledLocation: string := "Palestine"

  /** The label mapping for job titles (a whole-value `replace`). */
  function CanonicalJobTitle(title: string): string {
    if title == DuplicateJobTitle then MergedJobTitle else title
  }

  /** The label mapping for company locations (a whole-value `replace`). */
  function CanonicalLocation(location: string): string {
    if location == ReplacedLocation then RelabelledLocation else location
  }

  function FixJobTitle(r: RawRecord): RawRecord {
    r.(jobTitle := CanonicalJobTitle(r.jobTitle))
  }

  function FixLocation(r: RawRecord): RawRecord {
    r.(companyLocation := CanonicalLocation(r.companyLocation))
  }

  function Project(r: RawRecord): Record {
    Record(r.jobTitle, r.employmentType, r.experienceLevel, r.expertiseLevel,
           r.companyLocation, r.salaryInUsd, r.companySize, r.year)
  }

  /** `lower <= salary < upper`, the outlier mask. */
  predicate SalaryInBounds(salary: int, lower: real, upper: real) {
    lower <= salary as real < upper
  }

  function RawInBounds(lower: real, upper: real): RawRecord -> bool {
    (r: RawRecord) => SalaryInBounds(r.salaryInUsd, lower, upper)
  }

  function InBounds(lower: real, upper: real): Record -> bool {
    (r: Record) => SalaryInBounds(r.salaryInUsd, lower, upper)
  }

  /** Drops the rows whose salary lies outside `[lower, upper)`. */
  function TrimOutliers(rows: seq<RawRecord>, lower: real, upper: real): (r: seq<RawRecord>)
    ensures forall x :: x in r ==> SalaryInBounds(x.salaryInUsd, lower, upper)
    ensures forall x :: x in rows && SalaryInBounds(x.salaryInUsd, lower, upper) ==> x in r
    ensures forall x :: multiset(r)[x] == if SalaryInBounds(x.salaryInUsd, lower, upper) then multiset(rows)[x] else 0
    ensures IsSubsequence(r, rows)
  {
    Where(rows, RawInBounds(lower, upper))
  }

  /** The canonical form of one raw row: both relabellings and the projection. */
  function Canonical(r: RawRecord): Record {
    Project(FixLocation(FixJobTitle(r)))
  }

  /** The preparation pass, in the order app.py applies it: merge the duplicate job
      title, trim outliers with the given IQR bounds, relabel the location,
      keep the eight columns. The bounds are parameters: computing the
      quartiles is not modelled. */
  function Prepare(raw: seq<RawRecord>, lower: real, upper: real): (t: Table)
    ensures forall r :: r in t ==> SalaryInBounds(r.salaryInUsd, lower, upper)
    ensures forall r :: r in t ==> r.jobTitle != DuplicateJobTitle && r.companyLocation != ReplacedLocation
  {
    var kept := TrimOutliers(Map(raw, FixJobTitle), lower, upper);
    PreparedRows(raw, lower, upper);
    Map(Map(kept, FixLocation), Project)
  }

  lemma PreparedRows(raw: seq<RawRecord>, lower: real, upper: real)
    ensures forall r :: r in Map(Map(TrimOutliers(Map(raw, FixJobTitle), lower, upper), FixLocation), Project) ==>
              SalaryInBounds(r.salaryInUsd, lower, upper) && r.jobTitle != DuplicateJobTitle && r.companyLocation != ReplacedLocation
  {
    MergedTitles(raw);
    RelabelledRows(TrimOutliers(Map(raw, FixJobTitle), lower, upper), lower, upper);
  }

  /** After the merge no row carries the duplicate title. */
  lemma MergedTitles(raw: seq<RawRecord>)
    ensures forall y :: y in Map(raw, FixJobTitle) ==> y.jobTitle != DuplicateJobTitle
  {
    forall y | y in Map(raw, FixJobTitle) ensures y.jobTitle != DuplicateJobTitle {
      var k :| 0 <= k < |raw| && Map(raw, FixJobTitle)[k] == y;
    }
  }

  lemma RelabelledRows(kept: seq<RawRecord>, lower: real, upper: real)
    requires forall y :: y in kept ==> SalaryInBounds(y.salaryInUsd, lower, upper) && y.jobTitle != DuplicateJobTitle
    ensures forall r :: r in Map(Map(kept, FixLocation), Project) ==>
              SalaryInBounds(r.salaryInUsd, lower, upper) && r.jobTitle != DuplicateJobTitle && r.companyLocation != ReplacedLocation
  {
    var t := Map(Map(kept, FixLocation), Project);
    forall r | r in t
      ensures SalaryInBounds(r.salaryInUsd, lower, upper) && r.jobTitle != DuplicateJobTitle && r.companyLocation != ReplacedLocation
    {
      var i :| 0 <= i < |t| && t[i] == r;
      assert r == Project(FixLocation(kept[i]));
      assert kept[i] in kept;
    }
  }

  /** Relabelling a column does not change which rows the salary mask keeps. */
  lemma {:induction false} TrimCommutes(raw: seq<RawRecord>, lower: real, upper: real)
    ensures Map(TrimOutliers(Map(raw, FixJobTitle), lower, upper), FixLocation)
         == Map(Map(TrimOutliers(raw, lower, upper), FixJobTitle), FixLocation)
  {
    if |raw| > 0 {
      TrimCommutes(raw[1..], lower, upper);
      assert Map(raw, FixJobTitle)[1..] == Map(raw[1..], FixJobTitle);
    }
  }

  /** Nothing but outliers is dropped, nothing is reordered: the prepared
      table is the in-bounds raw rows, in order, each in canonical form. */
  lemma PrepareKeepsInBoundsRows(raw: seq<RawRecord>, lower: real, upper: real)
    ensures Prepare(raw, lower, upper) == Map(TrimOutliers(raw, lower, upper), Canonical)
    ensures |Prepare(raw, lower, upper)| == |TrimOutliers(raw, lower, upper)|
  {
    TrimCommutes(raw, lower, upper);
    var kept := TrimOutliers(raw, lower, upper);
    assert Prepare(raw, lower, upper) == Map(Map(Map(kept, FixJobTitle), FixLocation), Project);
  }

  /** The prepared rows, trimmed again with the same bounds. */
  function Retrim(t: Table, lower: real, upper: real): Table {
    Where(t, InBounds(lower, upper))
  }

  /** Trimming is idempotent: re-applying the same bounds removes nothing. */
  lemma RetrimRemovesNothing(raw: seq<RawRecord>, lower: real, upper: real)
    ensures Retrim(Prepare(raw, lower, upper), lower, upper) == Prepare(raw, lower, upper)
  {
    var t := Prepare(raw, lower, upper);
    assert IsSubsequence(t, t) by {
      SubsequenceReflexive(t);
    }
    WhereUnique(t, t, InBounds(lower, upper));
  }

  /** A prepared row read back as a raw row, with no further columns. */
  function Widen(r: Record): RawRecord {
    RawRecord(r.jobTitle, r.employmentType, r.experienceLevel, r.expertiseLevel,
              r.companyLocation, r.salaryInUsd, r.companySize, r.year, [])
  }

  /** Cleaning is idempotent: preparing the prepared table again, with the
      same bounds, changes nothing. */
  lemma PrepareIdempotent(raw: seq<RawRecord>, lower: real, upper: real)
    ensures Prepare(Map(Prepare(raw, lower, upper), Widen), lower, upper) == Prepare(raw, lower, upper)
  {
    var t := Prepare(raw, lower, upper);
    var w := Map(t, Widen);
    PrepareKeepsInBoundsRows(w, lower, upper);
    assert forall x :: x in w ==> RawInBounds(lower, upper)(x) by {
      forall x | x in w ensures RawInBounds(lower, upper)(x) {
        var i :| 0 <= i < |w| && w[i] == x;
        assert t[i] in t;
      }
    }
    SubsequenceReflexive(w);
    WhereUnique(w, w, RawInBounds(lower, upper));
    CanonicalAfterWiden(t);
  }

  /** Re-canonicalising rows that carry neither replaced label gives them back. */
  lemma {:induction false} CanonicalAfterWiden(t: Table)
    requires forall r :: r in t ==> r.jobTitle != DuplicateJobTitle && r.companyLocation != ReplacedLocation
    ensures Map(Map(t, Widen), Canonical) == t
  {
    if |t| > 0 {
      assert t[0] in t;
      CanonicalAfterWiden(t[1..]);
      assert Map(t, Widen)[1..] == Map(t[1..], Widen);
    }
  }

  /** Python's `sorted(df["Job_Title"].unique())`. */
  function SortedTitles(t: Table): (r: seq<string>)
    ensures SortedBy(r, LexLe)
    ensures NoDups(r)
    ensures forall s :: s in r <==> s in Map(t, Title)
  {
    var d := Distinct(Map(t, Title));
    var r := SortStrings(d);
    SubMultisetNoDups(r, d);
    assert forall s :: s in r <==> s in d by {
      forall s ensures s in r <==> s in d {
        assert s in r <==> s in multiset(r);
      }
    }
    r
  }

  /** The title list depends only on which titles occur: two tables with
      the same titles give the same list. */
  lemma SortedTitlesDetermined(t1: Table, t2: Table)
    requires forall s :: s in Map(t1, Title) <==> s in Map(t2, Title)
    ensures SortedTitles(t1) == SortedTitles(t2)
  {
    SortedStringsUnique(SortedTitles(t1), SortedTitles(t2));
  }

  /** The job selector's value meaning "any title". */
  const AllJobs: string := "All"

  /** The module-level option list: `"All"` followed by the sorted distinct
      titles of the prepared table. */
  function InitialJobOptions(t: Table): (r: seq<string>)
    ensures |r| > 0 && r[0] == AllJobs
    ensures forall s :: s in r[1..] <==> s in Map(t, Title)
    ensures SortedBy(r[1..], LexLe) && NoDups(r[1..])
  {
    [AllJobs] + SortedTitles(t)
  }

  /** The year selector: `"all"` or one year. */
  datatype YearChoice = AllYears | InYear(year: int)

  function Title(r: Record): string { r.jobTitle }
  function Location(r: Record): string { r.companyLocation }
  function Experience(r: Record): string { r.experienceLevel }
  function Expertise(r: Record): string { r.expertiseLevel }
  function YearOf(r: Record): int { r.year }
  function Salary(r: Record): int { r.salaryInUsd }

  predicate YearMatches(year: YearChoice, r: Record) {
    year.AllYears? || r.year == year.year
  }

  predicate JobMatches(job: string, r: Record) {
    job == AllJobs || r.jobTitle == job
  }

  /** The rows of the selected year (all rows for `"all"`). */
  function YearScope(t: Table, year: YearChoice): (s: Table)
    ensures IsSubsequence(s, t)
    ensures forall r :: r in s <==> r in t && YearMatches(year, r)
    ensures forall r :: multiset(s)[r] == if YearMatches(year, r) then multiset(t)[r] else 0
  {
    Where(t, r => YearMatches(year, r))
  }

  /** The rows of the selected job title (all rows for `"All"`). */
  function JobScope(t: Table, job: string): (s: Table)
    ensures IsSubsequence(s, t)
    ensures forall r :: r in s <==> r in t && JobMatches(job, r)
    ensures forall r :: multiset(s)[r] == if JobMatches(job, r) then multiset(t)[r] else 0
  {
    Where(t, r => JobMatches(job, r))
  }

  /** The year selector, then the job selector, as every Locations and
      Experience view applies them. */
  function Selection(t: Table, year: YearChoice, job: string): (s: Table)
    ensures IsSubsequence(s, t)
    ensures forall r :: r in s <==> r in t && YearMatches(year, r) && JobMatches(job, r)
    ensures forall r :: multiset(s)[r] == if YearMatches(year, r) && JobMatches(job, r) then multiset(t)[r] else 0
  {
    var y := YearScope(t, year);
    SubsequenceTransitive(JobScope(y, job), y, t);
    JobScope(y, job)
  }

  lemma {:induction false} SubsequenceTransitive<T>(a: seq<T>, b: seq<T>, c: seq<T>)
    requires IsSubsequence(a, b) && IsSubsequence(b, c)
    ensures IsSubsequence(a, c)
    decreases |c|
  {
    if |a| > 0 {
      if b[0] == c[0] && IsSubsequence(b[1..], c[1..]) {
        if a[0] == b[0] && IsSubsequence(a[1..], b[1..]) {
          SubsequenceTransitive(a[1..], b[1..], c[1..]);
        } else {
          SubsequenceTransitive(a, b[1..], c[1..]);
        }
      } else {
        SubsequenceTransitive(a, b, c[1..]);
      }
    }
  }

  /** Filter exactness: the selection is exactly the rows, in their original
      order, that satisfy both selectors. */
  lemma SelectionExact(t: Table, year: YearChoice, job: string)
    ensures Selection(t, year, job) == Where(t, r => YearMatches(year, r) && JobMatches(job, r))
  {
    WhereUnique(Selection(t, year, job), t, r => YearMatches(year, r) && JobMatches(job, r));
  }
}

=== FILE: seqs.dfy ===
/** Generic sequence helpers the dashboard's table operations are built from:
    optional values, element-wise mapping, order-preserving filtering,
    de-duplication, reversal, sums and means. */
module Seqs {

  /** A value that may be absent (pandas yields NaN for the mean of no rows). */
  datatype Option<+T> = None | Some(value: T)

  function Min(a: int, b: int): int {
    if a <= b then a else b
  }

  /** The set of elements of a sequence. */
  function Elements<T>(xs: seq<T>): set<T> {
    set x | x in xs
  }

  /** Applies `f` to every element, keeping positions. */
  function Map<T, U>(xs: seq<T>, f: T -> U): (r: seq<U>)
    ensures |r| == |xs|
    ensures forall i :: 0 <= i < |xs| ==> r[i] == f(xs[i])
  {
    if |xs| == 0 then [] else [f(xs[0])] + Map(xs[1..], f)
  }

  /** `s` can be obtained from `t` by deleting elements, without reordering. */
  predicate IsSubsequence<T(==)>(s: seq<T>, t: seq<T>)
    decreases |t|
  {
    if |s| == 0 then true
    else if |t| == 0 then false
    else (s[0] == t[0] && IsSubsequence(s[1..], t[1..])) || IsSubsequence(s, t[1..])
  }

  /** Boolean-mask selection `xs[p]`: the elements satisfying `p`, in their
      original order, each kept as often as it occurs. */
  function Where<T(==,!new)>(xs: seq<T>, p: T -> bool): (r: seq<T>)
    ensures IsSubsequence(r, xs)
    ensures forall x :: multiset(r)[x] == if p(x) then multiset(xs)[x] else 0
    ensures forall x :: x in r <==> x in xs && p(x)
  {
    if |xs| == 0 then []
    else
      assert xs == [xs[0]] + xs[1..];
      var rest := Where(xs[1..], p);
      if p(xs[0]) then [xs[0]] + rest else rest
  }

  /** Every sequence is a subsequence of itself. */
  lemma {:induction false} SubsequenceReflexive<T>(s: seq<T>)
    ensures IsSubsequence(s, s)
  {
    if |s| > 0 {
      SubsequenceReflexive(s[1..]);
    }
  }

  lemma {:induction false} SubsequenceMultiset<T>(s: seq<T>, t: seq<T>)
    requires IsSubsequence(s, t)
    ensures multiset(s) <= multiset(t)
    decreases |t|
  {
    if |s| == 0 {
    } else {
      assert t == [t[0]] + t[1..];
      if s[0] == t[0] && IsSubsequence(s[1..], t[1..]) {
        SubsequenceMultiset(s[1..], t[1..]);
        assert s == [s[0]] + s[1..];
      } else {
        SubsequenceMultiset(s, t[1..]);
      }
    }
  }

  /** `Where` is the only order-preserving selection that keeps exactly the
      elements satisfying `p`, each as often as it occurs. */
  lemma {:induction false} WhereUnique<T(!new)>(s: seq<T>, xs: seq<T>, p: T -> bool)
    requires IsSubsequence(s, xs)
    requires forall x :: x in s ==> p(x)
    requires forall x :: p(x) ==> multiset(s)[x] == multiset(xs)[x]
    ensures s == Where(xs, p)
    decreases |xs|
  {
    if |xs| == 0 {
      assert |s| == 0;
    } else {
      var a := xs[0];
      assert xs == [a] + xs[1..];
      if p(a) {
        assert multiset(s)[a] == multiset(xs)[a] > 0;
        assert |s| > 0;
        if s[0] == a && IsSubsequence(s[1..], xs[1..]) {
          assert s == [a] + s[1..];
          forall x | p(x)
            ensures multiset(s[1..])[x] == multiset(xs[1..])[x]
          {
            assert multiset(s)[x] == multiset(s[1..])[x] + (if x == a then 1 else 0);
          }
          WhereUnique(s[1..], xs[1..], p);
        } else {
          assert IsSubsequence(s, xs[1..]);
          SubsequenceMultiset(s, xs[1..]);
          assert false;
        }
      } else {
        if |s| > 0 {
          assert s[0] in s;
          assert s[0] != a;
        }
        assert IsSubsequence(s, xs[1..]);
        WhereUnique(s, xs[1..], p);
      }
    }
  }

  /** No element occurs twice. */
  predicate NoDups<T(==)>(xs: seq<T>) {
    forall i, j :: 0 <= i < j < |xs| ==> xs[i] != xs[j]
  }

  /** pandas `unique()`: each element once. The contract fixes which
      elements appear, not their order. */
  function Distinct<T(==,!new)>(xs: seq<T>): (r: seq<T>)
    ensures NoDups(r)
    ensures forall x :: x in r <==> x in xs
    ensures |r| <= |xs|
    decreases |xs|
  {
    if |xs| == 0 then []
    else
      var last := xs[|xs| - 1];
      assert xs == xs[..|xs| - 1] + [last];
      var d := Distinct(xs[..|xs| - 1]);
      if last in d then d else d + [last]
  }

  /** pandas `nunique()`: the number of distinct elements. */
  function CountDistinct<T(==,!new)>(xs: seq<T>): (n: nat)
    ensures n == |Elements(xs)|
    ensures n <= |xs|
  {
    var d := Distinct(xs);
    NoDupsCardinality(d);
    assert Elements(d) == Elements(xs);
    |d|
  }

  /** A duplicate-free sequence has as many elements as its set. */
  lemma {:induction false} NoDupsCardinality<T>(xs: seq<T>)
    requires NoDups(xs)
    ensures |Elements(xs)| == |xs|
  {
    if |xs| > 0 {
      NoDupsCardinality(xs[1..]);
      assert Elements(xs) == {xs[0]} + Elements(xs[1..]);
      assert xs[0] !in Elements(xs[1..]);
    }
  }

  /** In a duplicate-free sequence every element occurs exactly once. */
  lemma {:induction false} NoDupsOccursOnce<T>(xs: seq<T>, x: T)
    requires NoDups(xs)
    ensures multiset(xs)[x] == if x in xs then 1 else 0
  {
    if |xs| > 0 {
      assert xs == [xs[0]] + xs[1..];
      NoDupsOccursOnce(xs[1..], x);
      assert xs[0] !in xs[1..];
    }
  }

  /** Two positions holding the same element make it occur at least twice. */
  lemma TwoPositions<T>(xs: seq<T>, i: int, j: int)
    requires 0 <= i < j < |xs| && xs[i] == xs[j]
    ensures multiset(xs)[xs[i]] >= 2
  {
    assert xs == xs[..j] + [xs[j]] + xs[j + 1..];
    assert xs[i] in xs[..j];
  }

  /** Whatever occurs at most once in a duplicate-free sequence still
      occurs at most once in any sequence it contains. */
  lemma SubMultisetNoDups<T>(s: seq<T>, xs: seq<T>)
    requires NoDups(xs)
    requires multiset(s) <= multiset(xs)
    ensures NoDups(s)
  {
    forall i, j | 0 <= i < j < |s|
      ensures s[i] != s[j]
    {
      if s[i] == s[j] {
        TwoPositions(s, i, j);
        NoDupsOccursOnce(xs, s[i]);
        assert false;
      }
    }
  }

  /** The elements in reverse order. */
  function Reverse<T>(xs: seq<T>): (r: seq<T>)
    ensures |r| == |xs|
    ensures forall i :: 0 <= i < |xs| ==> r[i] == xs[|xs| - 1 - i]
    ensures multiset(r) == multiset(xs)
  {
    if |xs| == 0 then []
    else
      assert xs == [xs[0]] + xs[1..];
      Reverse(xs[1..]) + [xs[0]]
  }

  function Sum(xs: seq<int>): int {
    if |xs| == 0 then 0 else xs[0] + Sum(xs[1..])
  }


  /** `m` is the arithmetic mean of `xs`: `m` times the count is the sum. */
  predicate IsMeanOf(m: real, xs: seq<int>) {
    m * (|xs| as real) == Sum(xs) as real
  }

  /** Arithmetic mean, pandas `mean()` on a non-empty column. */
  function Average(xs: seq<int>): (r: real)
    requires |xs| > 0
    ensures IsMeanOf(r, xs)
  {
    (Sum(xs) as real) / (|xs| as real)
  }

  /** pandas `mean()`, which is undefined (NaN) on an empty column. */
  function Mean(xs: seq<int>): (r: Option<real>)
    ensures r.Some? <==> |xs| > 0
    ensures r.Some? ==> IsMeanOf(r.value, xs)
  {
    if |xs| == 0 then None else Some(Average(xs))
  }

  lemma {:induction false} SumBounds(xs: seq<int>, lo: real, hi: real)
    requires forall i :: 0 <= i < |xs| ==> lo <= xs[i] as real < hi
    ensures (|xs| as real) * lo <= Sum(xs) as real
    ensures |xs| > 0 ==> Sum(xs) as real < (|xs| as real) * hi
  {
    if |xs| > 0 {
      SumBounds(xs[1..], lo, hi);
    }
  }

  /** The mean of values in `[lo, hi)` lies in `[lo, hi)`. */
  lemma AverageBounds(xs: seq<int>, lo: real, hi: real)
    requires |xs| > 0
    requires forall i :: 0 <= i < |xs| ==> lo <= xs[i] as real < hi
    ensures lo <= Average(xs) < hi
  {
    SumBounds(xs, lo, hi);
  }
}

=== FILE: views.dfy ===
/** The data-shaping part of every chart and card (app.py lines 198-649):
    value counts, group means, top-N selections, popularity percentages,
    the summary cards, the per-year trend and the scatter-or-bar choice. */
module Views {
  import opened Seqs
  import opened Ordering
  import opened Salaries

  /** The first components of a sequence of (label, value) pairs. */
  function Keys<K, V>(ps: seq<(K, V)>): (r: seq<K>)
    ensures |r| == |ps|
    ensures forall i :: 0 <= i < |ps| ==> r[i] == ps[i].0
  {
    Map(ps, (p: (K, V)) => p.0)
  }

  lemma KeysOfMembers<K, V>(ps: seq<(K, V)>)
    ensures forall p :: p in ps ==> p.0 in Keys(ps)
  {
    forall p | p in ps ensures p.0 in Keys(ps) {
      var i :| 0 <= i < |ps| && ps[i] == p;
      assert Keys(ps)[i] == p.0;
    }
  }

  /** No label appears twice: a pandas Series index after `groupby`. */
  predicate UniqueKeys<K(==), V>(ps: seq<(K, V)>) {
    forall i, j :: 0 <= i < |ps| && 0 <= j < |ps| && ps[i].0 == ps[j].0 ==> i == j
  }

  /** Whatever is drawn from pairs with unique labels has unique labels. */
  lemma SubMultisetUniqueKeys<K, V>(s: seq<(K, V)>, g: seq<(K, V)>)
    requires UniqueKeys(g)
    requires multiset(s) <= multiset(g)
    ensures UniqueKeys(s)
    ensures forall p :: p in s ==> p in g
  {
    assert NoDups(g);
    SubMultisetNoDups(s, g);
    assert forall p :: p in s ==> p in g by {
      forall p | p in s ensures p in g {
        assert p in multiset(s);
      }
    }
    forall i, j | 0 <= i < |s| && 0 <= j < |s| && s[i].0 == s[j].0
      ensures i == j
    {
      assert s[i] in g && s[j] in g;
      var a :| 0 <= a < |g| && g[a] == s[i];
      var b :| 0 <= b < |g| && g[b] == s[j];
      assert a == b;
    }
  }

  /** Number of rows whose `key` column holds `k`: one entry of
      `value_counts()`. */
  function Frequency<K(==)>(t: Table, key: Record -> K, k: K): nat {
    multiset(Map(t, key))[k]
  }

  function CountsFor<K>(ks: seq<K>, m: multiset<K>): (r: seq<(K, int)>)
    ensures |r| == |ks|
    ensures forall i :: 0 <= i < |ks| ==> r[i] == (ks[i], m[ks[i]])
  {
    if |ks| == 0 then [] else [(ks[0], m[ks[0]])] + CountsFor(ks[1..], m)
  }

  /** Pairing each of a duplicate-free list of labels with its count keeps
      the labels unique and lists every label exactly once. */
  lemma CountsForLabels<K>(ks: seq<K>, m: multiset<K>)
    requires NoDups(ks)
    ensures UniqueKeys(CountsFor(ks, m))
    ensures forall p :: p in CountsFor(ks, m) ==> p.0 in ks && p.1 == m[p.0]
    ensures forall k :: k in ks ==> (k, m[k]) in CountsFor(ks, m)
  {
    var r := CountsFor(ks, m);
    forall k | k in ks ensures (k, m[k]) in r {
      var i :| 0 <= i < |ks| && ks[i] == k;
      assert r[i] == (k, m[k]);
    }
  }

  /** `value_counts()` before sorting: one (label, row count) pair per
      distinct label of the column. */
  function GroupCounts<K(==,!new)>(t: Table, key: Record -> K): (r: seq<(K, int)>)
    ensures UniqueKeys(r)
    ensures |r| == |Elements(Map(t, key))|
    ensures forall p :: p in r ==> p.0 in Map(t, key) && p.1 == Frequency(t, key, p.0) && p.1 > 0
    ensures forall k :: k in Map(t, key) ==> (k, Frequency(t, key, k)) in r
  {
    var ks := Distinct(Map(t, key));
    NoDupsCardinality(ks);
    assert Elements(ks) == Elements(Map(t, key));
    CountsForLabels(ks, multiset(Map(t, key)));
    CountsFor(ks, multiset(Map(t, key)))
  }

  /** The rows whose `key` column holds `k`: one group of a `groupby`. */
  function Group<K(==,!new)>(t: Table, key: Record -> K, k: K): (g: Table)
    ensures forall r :: r in g <==> r in t && key(r) == k
    ensures forall r :: multiset(g)[r] == if key(r) == k then multiset(t)[r] else 0
    ensures IsSubsequence(g, t)
    ensures k in Map(t, key) ==> |g| > 0
  {
    var g := Where(t, (r: Record) => key(r) == k);
    if k in Map(t, key) then
      var i :| 0 <= i < |t| && Map(t, key)[i] == k;
      assert t[i] in g;
      g
    else g
  }

  /** `groupby(key)["Salary_in_USD"].mean()` for the group labelled `k`. */
  function GroupAverage<K(==,!new)>(t: Table, key: Record -> K, k: K): real
    requires k in Map(t, key)
  {
    Average(Map(Group(t, key, k), Salary))
  }

  function MeansFor<K(==,!new)>(t: Table, key: Record -> K, ks: seq<K>): (r: seq<(K, real)>)
    requires forall k :: k in ks ==> k in Map(t, key)
    ensures |r| == |ks|
    ensures forall i :: 0 <= i < |ks| ==> r[i] == (ks[i], GroupAverage(t, key, ks[i]))
  {
    if |ks| == 0 then [] else [(ks[0], GroupAverage(t, key, ks[0]))] + MeansFor(t, key, ks[1..])
  }

  /** Pairing each of a duplicate-free list of labels with its group's mean
      keeps the labels unique and lists every label exactly once. */
  lemma MeansForLabels<K(!new)>(t: Table, key: Record -> K, ks: seq<K>)
    requires NoDups(ks)
    requires forall k :: k in ks ==> k in Map(t, key)
    ensures UniqueKeys(MeansFor(t, key, ks))
    ensures forall p :: p in MeansFor(t, key, ks) ==> p.0 in ks && p.1 == GroupAverage(t, key, p.0)
    ensures forall k :: k in ks ==> (k, GroupAverage(t, key, k)) in MeansFor(t, key, ks)
  {
    var r := MeansFor(t, key, ks);
    forall k | k in ks ensures (k, GroupAverage(t, key, k)) in r {
      var i :| 0 <= i < |ks| && ks[i] == k;
      assert r[i] == (k, GroupAverage(t, key, k));
    }
  }

  /** `groupby(key)["Salary_in_USD"].mean()` before sorting: one (label,
      mean salary) pair per distinct label of the column. */
  function GroupMeans<K(==,!new)>(t: Table, key: Record -> K): (r: seq<(K, real)>)
    ensures UniqueKeys(r)
    ensures |r| == |Elements(Map(t, key))|
    ensures forall p :: p in r ==> p.0 in Map(t, key) && p.1 == GroupAverage(t, key, p.0)
    ensures forall k :: k in Map(t, key) ==> (k, GroupAverage(t, key, k)) in r
  {
    var ks := Distinct(Map(t, key));
    NoDupsCardinality(ks);
    assert Elements(ks) == Elements(Map(t, key));
    MeansForLabels(t, key, ks);
    MeansFor(t, key, ks)
  }

  /** `a` ranks at least as high as `b` by row count. */
  predicate MoreFrequent<K>(a: (K, int), b: (K, int)) {
    a.1 >= b.1
  }

  /** `a` ranks at least as high as `b` by mean salary. */
  predicate HigherMean<K>(a: (K, real), b: (K, real)) {
    a.1 >= b.1
  }

  /** `a`'s year is not later than `b`'s. */
  predicate NotLaterYear(a: (int, real), b: (int, real)) {
    a.0 <= b.0
  }

  /** Top-N of groups with unique labels: the kept pairs are groups, labels
      stay unique, and a group whose label is not kept ranks no higher than
      the last pair kept. */
  lemma TopOfGroups<K(!new), V(!new)>(g: seq<(K, V)>, le: ((K, V), (K, V)) -> bool, n: nat)
    requires TotalPreorder(le)
    requires UniqueKeys(g)
    ensures UniqueKeys(Top(g, le, n))
    ensures forall p :: p in Top(g, le, n) ==> p in g
    ensures forall p :: n > 0 && p in g && p.0 !in Keys(Top(g, le, n)) ==>
              |Top(g, le, n)| == n && le(Top(g, le, n)[n - 1], p)
  {
    var top := Top(g, le, n);
    SubMultisetUniqueKeys(top, g);
    KeysOfMembers(top);
  }

  /** A reversed top-N (`head(n)[::-1]`) of groups: labels stay unique,
      and a group whose label is left out ranks no higher than the first
      pair. */
  lemma TopAscendingOfGroups<K(!new), V(!new)>(g: seq<(K, V)>, le: ((K, V), (K, V)) -> bool, n: nat)
    requires TotalPreorder(le)
    requires UniqueKeys(g)
    ensures UniqueKeys(TopAscending(g, le, n))
    ensures forall p :: p in TopAscending(g, le, n) ==> p in g
    ensures forall p :: n > 0 && p in g && p.0 !in Keys(TopAscending(g, le, n)) ==>
              |TopAscending(g, le, n)| == n && le(TopAscending(g, le, n)[0], p)
  {
    var r := TopAscending(g, le, n);
    SubMultisetUniqueKeys(r, g);
    KeysOfMembers(r);
    TopAscendingExcluded(g, le, n);
  }

  /** Home page bar chart "Top Demanded Job": the ten most frequent titles of
      the year scope with their row counts, shown in ascending order. */
  function TopDemandedJobs(t: Table, year: YearChoice): (r: seq<(string, int)>)
    ensures |r| == Min(10, |Elements(Map(YearScope(t, year), Title))|)
    ensures UniqueKeys(r)
    ensures forall p :: p in r ==> p.0 in Map(YearScope(t, year), Title) && p.1 == Frequency(YearScope(t, year), Title, p.0) && p.1 > 0
    ensures forall i, j :: 0 <= i < j < |r| ==> r[i].1 <= r[j].1
    ensures forall k :: k in Map(YearScope(t, year), Title) && k !in Keys(r) ==>
              |r| == 10 && Frequency(YearScope(t, year), Title, k) <= r[0].1
  {
    var scope := YearScope(t, year);
    var g := GroupCounts(scope, Title);
    TopAscendingOfGroups(g, MoreFrequent, 10);
    TopAscendingOrdered(g, MoreFrequent, 10);
    TopAscending(g, MoreFrequent, 10)
  }

  /** Home page bar chart "Jobs of the Highest Average Salary": the ten
      titles of the year scope with the highest mean salary, ascending. */
  function HighestPaidJobs(t: Table, year: YearChoice): (r: seq<(string, real)>)
    ensures |r| == Min(10, |Elements(Map(YearScope(t, year), Title))|)
    ensures UniqueKeys(r)
    ensures forall p :: p in r ==> p.0 in Map(YearScope(t, year), Title) && p.1 == GroupAverage(YearScope(t, year), Title, p.0)
    ensures forall i, j :: 0 <= i < j < |r| ==> r[i].1 <= r[j].1
    ensures forall k :: k in Map(YearScope(t, year), Title) && k !in Keys(r) ==>
              |r| == 10 && GroupAverage(YearScope(t, year), Title, k) <= r[0].1
  {
    var scope := YearScope(t, year);
    var g := GroupMeans(scope, Title);
    TopAscendingOfGroups(g, HigherMean, 10);
    TopAscendingOrdered(g, HigherMean, 10);
    TopAscending(g, HigherMean, 10)
  }

  /** Total of the counts of a Series of (label, count) pairs. */
  function SumCounts<K>(ps: seq<(K, int)>): int {
    if |ps| == 0 then 0 else ps[0].1 + SumCounts(ps[1..])
  }

  /** Total of the values of a Series of (label, percentage) pairs. */
  function SumShares<K>(ps: seq<(K, real)>): real {
    if |ps| == 0 then 0.0 else ps[0].1 + SumShares(ps[1..])
  }

  lemma {:induction false} CountAtMostSum<K>(ps: seq<(K, int)>, i: int)
    requires forall j :: 0 <= j < |ps| ==> ps[j].1 > 0
    requires 0 <= i < |ps|
    ensures ps[i].1 <= SumCounts(ps)
    ensures SumCounts(ps) > 0
  {
    if i > 0 {
      CountAtMostSum(ps[1..], i - 1);
    } else if |ps| > 1 {
      CountAtMostSum(ps[1..], 0);
    }
  }

  /** `share` is `count` as a percentage of `total`. */
  predicate IsShareOf(share: real, count: int, total: int) {
    share * (total as real) == (count as real) * 100.0
  }

  /** Each count as a percentage of `total`. */
  function PercentOf<K>(ps: seq<(K, int)>, total: int): (r: seq<(K, real)>)
    requires total > 0
    ensures |r| == |ps|
    ensures forall i :: 0 <= i < |ps| ==> r[i].0 == ps[i].0 && IsShareOf(r[i].1, ps[i].1, total)
  {
    if |ps| == 0 then []
    else [(ps[0].0, (ps[0].1 as real) * 100.0 / (total as real))] + PercentOf(ps[1..], total)
  }

  lemma {:induction false} PercentOfSum<K>(ps: seq<(K, int)>, total: int)
    requires total > 0
    ensures SumShares(PercentOf(ps, total)) * (total as real) == (SumCounts(ps) as real) * 100.0
  {
    if |ps| > 0 {
      PercentOfSum(ps[1..], total);
      var r := PercentOf(ps, total);
      assert r[1..] == PercentOf(ps[1..], total);
      assert SumShares(r) == r[0].1 + SumShares(r[1..]);
      assert IsShareOf(r[0].1, ps[0].1, total);
    }
  }

  /** `(s / sum(s)) * 100` on a Series of positive counts: every label's
      share of the total of the counts it is given (not of the whole
      selection). */
  function Percentages<K>(ps: seq<(K, int)>): (r: seq<(K, real)>)
    requires forall i :: 0 <= i < |ps| ==> ps[i].1 > 0
    ensures |r| == |ps|
    ensures forall i :: 0 <= i < |ps| ==>
              r[i].0 == ps[i].0 && IsShareOf(r[i].1, ps[i].1, SumCounts(ps))
  {
    if |ps| == 0 then []
    else
      CountAtMostSum(ps, 0);
      PercentOf(ps, SumCounts(ps))
  }

  /** Every percentage is positive and at most 100. */
  lemma PercentagesBounds<K>(ps: seq<(K, int)>)
    requires forall i :: 0 <= i < |ps| ==> ps[i].1 > 0
    ensures forall i :: 0 <= i < |ps| ==> 0.0 < Percentages(ps)[i].1 <= 100.0
  {
    var r := Percentages(ps);
    forall i | 0 <= i < |ps| ensures 0.0 < r[i].1 <= 100.0 {
      CountAtMostSum(ps, i);
      ShareBounds(r[i].1, ps[i].1, SumCounts(ps));
    }
  }

  /** The percentages of a non-empty Series add up to 100. */
  lemma PercentagesSum<K>(ps: seq<(K, int)>)
    requires forall i :: 0 <= i < |ps| ==> ps[i].1 > 0
    requires |ps| > 0
    ensures SumShares(Percentages(ps)) == 100.0
  {
    var total := SumCounts(ps);
    CountAtMostSum(ps, 0);
    PercentOfSum(ps, total);
    CancelPositive(SumShares(Percentages(ps)), 100.0, total as real);
  }

  lemma ShareBounds(share: real, count: int, total: int)
    requires 0 < count <= total
    requires IsShareOf(share, count, total)
    ensures 0.0 < share <= 100.0
  {
    var t := total as real;
    ScaleMonotone(share, 0.0, t);
    ScaleMonotone(100.0, share, t);
  }

  lemma ScaleMonotone(a: real, b: real, t: real)
    requires t > 0.0
    ensures a <= b ==> a * t <= b * t
  {
    if a <= b {
      assert b * t - a * t == (b - a) * t;
    }
  }

  lemma CancelPositive(a: real, b: real, t: real)
    requires t > 0.0
    requires a * t == b * t
    ensures a == b
  {
  }

  /** The popularity percentages of the "Top Demanded Job" bars: each title's
      share of the ten counts shown. */
  function TopDemandedShares(t: Table, year: YearChoice): (r: seq<(string, real)>)
    ensures |r| == |TopDemandedJobs(t, year)|
    ensures forall i :: 0 <= i < |r| ==>
              r[i].0 == TopDemandedJobs(t, year)[i].0 && IsShareOf(r[i].1, TopDemandedJobs(t, year)[i].1, SumCounts(TopDemandedJobs(t, year)))
  {
    var top := TopDemandedJobs(t, year);
    PositiveCounts(top);
    Percentages(top)
  }

  lemma PositiveCounts<K>(ps: seq<(K, int)>)
    requires forall p :: p in ps ==> p.1 > 0
    ensures forall i :: 0 <= i < |ps| ==> ps[i].1 > 0
  {
    forall i | 0 <= i < |ps| ensures ps[i].1 > 0 {
      assert ps[i] in ps;
    }
  }

  /** The "Top Demanded Job" percentages lie in (0, 100] and, when any
      title is shown, add up to 100. */
  lemma TopDemandedSharesNormalised(t: Table, year: YearChoice)
    ensures forall i :: 0 <= i < |TopDemandedShares(t, year)| ==> 0.0 < TopDemandedShares(t, year)[i].1 <= 100.0
    ensures |TopDemandedShares(t, year)| > 0 ==> SumShares(TopDemandedShares(t, year)) == 100.0
  {
    var top := TopDemandedJobs(t, year);
    PositiveCounts(top);
    PercentagesBounds(top);
    if |top| > 0 {
      PercentagesSum(top);
    }
  }

  /** The scatter-or-bar choice of the Locations and Experience charts. */
  datatype Chart = Scatter | Bars

  /** `0 < len(series) < scatterBelow` picks the scatter plot. */
  function ChartFor(groups: nat, scatterBelow: nat): Chart {
    if 0 < groups < scatterBelow then Scatter else Bars
  }

  /** Locations page "Top Location of Jobs": the five most frequent company
      locations of the selection with their row counts, most frequent first. */
  function TopLocations(t: Table, year: YearChoice, job: string): (r: seq<(string, int)>)
    ensures |r| == Min(5, |Elements(Map(Selection(t, year, job), Location))|)
    ensures UniqueKeys(r)
    ensures forall p :: p in r ==>
              p.0 in Map(Selection(t, year, job), Location) && p.1 == Frequency(Selection(t, year, job), Location, p.0) && p.1 > 0
    ensures forall i, j :: 0 <= i < j < |r| ==> r[i].1 >= r[j].1
    ensures forall k :: k in Map(Selection(t, year, job), Location) && k !in Keys(r) ==>
              |r| == 5 && Frequency(Selection(t, year, job), Location, k) <= r[4].1
  {
    var g := GroupCounts(Selection(t, year, job), Location);
    TopOfGroups(g, MoreFrequent, 5);
    Top(g, MoreFrequent, 5)
  }

  /** The popularity percentages of the "Top Location of Jobs" bars: each
      location's share of the five counts shown. */
  function TopLocationShares(t: Table, year: YearChoice, job: string): (r: seq<(string, real)>)
    ensures |r| == |TopLocations(t, year, job)|
    ensures forall i :: 0 <= i < |r| ==>
              r[i].0 == TopLocations(t, year, job)[i].0 && IsShareOf(r[i].1, TopLocations(t, year, job)[i].1, SumCounts(TopLocations(t, year, job)))
  {
    var top := TopLocations(t, year, job);
    PositiveCounts(top);
    Percentages(top)
  }

  /** The "Top Location of Jobs" percentages lie in (0, 100] and, when any
      location is shown, add up to 100. */
  lemma TopLocationSharesNormalised(t: Table, year: YearChoice, job: string)
    ensures forall i :: 0 <= i < |TopLocationShares(t, year, job)| ==> 0.0 < TopLocationShares(t, year, job)[i].1 <= 100.0
    ensures |TopLocationShares(t, year, job)| > 0 ==> SumShares(TopLocationShares(t, year, job)) == 100.0
  {
    var top := TopLocations(t, year, job);
    PositiveCounts(top);
    PercentagesBounds(top);
    if |top| > 0 {
      PercentagesSum(top);
    }
  }

  /** Scatter exactly when the selection has one or two company locations. */
  function TopLocationsChart(t: Table, year: YearChoice, job: string): (c: Chart)
    ensures c == Scatter <==> 0 < |Elements(Map(Selection(t, year, job), Location))| < 3
  {
    ChartFor(|TopLocations(t, year, job)|, 3)
  }

  /** Locations page "Top Company Location and AVG Salary Per Job": the ten
      company locations of the selection with the highest mean salary,
      ascending. */
  function SalaryByLocation(t: Table, year: YearChoice, job: string): (r: seq<(string, real)>)
    ensures |r| == Min(10, |Elements(Map(Selection(t, year, job), Location))|)
    ensures UniqueKeys(r)
    ensures forall p :: p in r ==>
              p.0 in Map(Selection(t, year, job), Location) && p.1 == GroupAverage(Selection(t, year, job), Location, p.0)
    ensures forall i, j :: 0 <= i < j < |r| ==> r[i].1 <= r[j].1
    ensures forall k :: k in Map(Selection(t, year, job), Location) && k !in Keys(r) ==>
              |r| == 10 && GroupAverage(Selection(t, year, job), Location, k) <= r[0].1
  {
    var g := GroupMeans(Selection(t, year, job), Location);
    TopAscendingOfGroups(g, HigherMean, 10);
    TopAscendingOrdered(g, HigherMean, 10);
    TopAscending(g, HigherMean, 10)
  }

  /** Scatter exactly when the selection has one to three company locations. */
  function SalaryByLocationChart(t: Table, year: YearChoice, job: string): (c: Chart)
    ensures c == Scatter <==> 0 < |Elements(Map(Selection(t, year, job), Location))| < 4
  {
    ChartFor(|SalaryByLocation(t, year, job)|, 4)
  }

  /** Sorting groups with unique labels keeps exactly those groups. */
  lemma SortedGroups<K(!new), V(!new)>(g: seq<(K, V)>, le: ((K, V), (K, V)) -> bool)
    requires TotalPreorder(le)
    requires UniqueKeys(g)
    ensures UniqueKeys(SortBy(g, le))
    ensures forall p :: p in SortBy(g, le) ==> p in g
    ensures forall p :: p in g ==> p in SortBy(g, le)
  {
    var r := SortBy(g, le);
    SubMultisetUniqueKeys(r, g);
    forall p | p in g ensures p in r {
      assert p in multiset(g);
    }
  }

  /** Experience page "Expected Salary Per Experience Level": the mean salary
      of every experience level of the selection, highest first. */
  function ExperienceSalary(t: Table, year: YearChoice, job: string): (r: seq<(string, real)>)
    ensures |r| == |Elements(Map(Selection(t, year, job), Experience))|
    ensures UniqueKeys(r)
    ensures forall p :: p in r ==>
              p.0 in Map(Selection(t, year, job), Experience) && p.1 == GroupAverage(Selection(t, year, job), Experience, p.0)
    ensures forall k :: k in Map(Selection(t, year, job), Experience) ==>
              (k, GroupAverage(Selection(t, year, job), Experience, k)) in r
    ensures forall i, j :: 0 <= i < j < |r| ==> r[i].1 >= r[j].1
  {
    var g := GroupMeans(Selection(t, year, job), Experience);
    SortedGroups(g, HigherMean);
    SortBy(g, HigherMean)
  }

  /** Scatter exactly when the selection has one or two experience levels. */
  function ExperienceSalaryChart(t: Table, year: YearChoice, job: string): (c: Chart)
    ensures c == Scatter <==> 0 < |Elements(Map(Selection(t, year, job), Experience))| < 3
  {
    ChartFor(|ExperienceSalary(t, year, job)|, 3)
  }

  /** `value_counts()` on one column: every label with its row count, most
      frequent first, the counts adding up to the number of rows. */
  function LevelCounts(sel: Table, key: Record -> string): (r: seq<(string, int)>)
    ensures UniqueKeys(r)
    ensures forall p :: p in r ==> p.0 in Map(sel, key) && p.1 == Frequency(sel, key, p.0) && p.1 > 0
    ensures forall k :: k in Map(sel, key) ==> (k, Frequency(sel, key, k)) in r
    ensures forall i, j :: 0 <= i < j < |r| ==> r[i].1 >= r[j].1
    ensures SumCounts(r) == |sel|
  {
    var g := GroupCounts(sel, key);
    SortedGroups(g, MoreFrequent);
    GroupCountsTotal(sel, key);
    SumCountsPermutation(SortBy(g, MoreFrequent), g);
    SortBy(g, MoreFrequent)
  }

  /** Experience page pie "Frequency of Demanded Experience". */
  function ExperienceCounts(t: Table, year: YearChoice, job: string): (r: seq<(string, int)>)
    ensures UniqueKeys(r)
    ensures forall p :: p in r ==>
              p.0 in Map(Selection(t, year, job), Experience) && p.1 == Frequency(Selection(t, year, job), Experience, p.0) && p.1 > 0
    ensures forall k :: k in Map(Selection(t, year, job), Experience) ==>
              (k, Frequency(Selection(t, year, job), Experience, k)) in r
    ensures forall i, j :: 0 <= i < j < |r| ==> r[i].1 >= r[j].1
    ensures SumCounts(r) == |Selection(t, year, job)|
  {
    LevelCounts(Selection(t, year, job), Experience)
  }

  /** Experience page pie "Frequency of Demanded Expert Level". */
  function ExpertiseCounts(t: Table, year: YearChoice, job: string): (r: seq<(string, int)>)
    ensures UniqueKeys(r)
    ensures forall p :: p in r ==>
              p.0 in Map(Selection(t, year, job), Expertise) && p.1 == Frequency(Selection(t, year, job), Expertise, p.0) && p.1 > 0
    ensures forall k :: k in Map(Selection(t, year, job), Expertise) ==>
              (k, Frequency(Selection(t, year, job), Expertise, k)) in r
    ensures forall i, j :: 0 <= i < j < |r| ==> r[i].1 >= r[j].1
    ensures SumCounts(r) == |Selection(t, year, job)|
  {
    LevelCounts(Selection(t, year, job), Expertise)
  }

  lemma {:induction false} SumCountsConcat<K>(a: seq<(K, int)>, b: seq<(K, int)>)
    ensures SumCounts(a + b) == SumCounts(a) + SumCounts(b)
  {
    if |a| > 0 {
      SumCountsConcat(a[1..], b);
      assert (a + b)[1..] == a[1..] + b;
    } else {
      assert a + b == b;
      assert SumCounts(a) == 0;
    }
  }

  /** Reordering a Series does not change the total of its counts. */
  lemma {:induction false} SumCountsPermutation<K>(a: seq<(K, int)>, b: seq<(K, int)>)
    requires multiset(a) == multiset(b)
    ensures SumCounts(a) == SumCounts(b)
    decreases |a|
  {
    if |a| == 0 {
      assert |b| == |multiset(b)|;
      assert b == [];
    } else {
      assert a[0] in multiset(b);
      var i :| 0 <= i < |b| && b[i] == a[0];
      RemoveOne(a, b, i);
      SumCountsPermutation(a[1..], b[..i] + b[i + 1..]);
      SumCountsSplit(b, i);
      SumCountsConcat(b[..i], b[i + 1..]);
    }
  }

  lemma RemoveOne<T>(a: seq<T>, b: seq<T>, i: int)
    requires multiset(a) == multiset(b)
    requires |a| > 0 && 0 <= i < |b| && b[i] == a[0]
    ensures multiset(a[1..]) == multiset(b[..i] + b[i + 1..])
  {
    var x := a[0];
    assert b == b[..i] + [x] + b[i + 1..];
    assert a == [x] + a[1..];
    calc {
      multiset(a[1..]);
      multiset(a) - multiset{x};
      multiset(b) - multiset{x};
      multiset(b[..i] + b[i + 1..]);
    }
  }

  lemma SumCountsSplit<K>(b: seq<(K, int)>, i: int)
    requires 0 <= i < |b|
    ensures SumCounts(b) == SumCounts(b[..i]) + b[i].1 + SumCounts(b[i + 1..])
  {
    assert b == b[..i] + ([b[i]] + b[i + 1..]);
    SumCountsConcat(b[..i], [b[i]] + b[i + 1..]);
    assert ([b[i]] + b[i + 1..])[1..] == b[i + 1..];
  }

  lemma {:induction false} CountsForEmpty<K>(ks: seq<K>)
    ensures SumCounts(CountsFor(ks, multiset{})) == 0
  {
    if |ks| > 0 {
      CountsForEmpty(ks[1..]);
      assert CountsFor(ks, multiset{})[1..] == CountsFor(ks[1..], multiset{});
    }
  }

  /** One more occurrence of `y` adds the number of times `y` is listed. */
  lemma {:induction false} CountsForAdd<K>(ks: seq<K>, m: multiset<K>, y: K)
    ensures SumCounts(CountsFor(ks, m + multiset{y})) == SumCounts(CountsFor(ks, m)) + multiset(ks)[y]
  {
    if |ks| > 0 {
      CountsForAdd(ks[1..], m, y);
      assert ks == [ks[0]] + ks[1..];
      assert CountsFor(ks, m + multiset{y})[1..] == CountsFor(ks[1..], m + multiset{y});
      assert CountsFor(ks, m)[1..] == CountsFor(ks[1..], m);
    }
  }

  /** Counting a column against its distinct labels accounts for every row. */
  lemma {:induction false} CountsForTotal<K>(ks: seq<K>, col: seq<K>)
    requires NoDups(ks)
    requires forall x :: x in col ==> x in ks
    ensures SumCounts(CountsFor(ks, multiset(col))) == |col|
  {
    if |col| == 0 {
      CountsForEmpty(ks);
    } else {
      var init := col[..|col| - 1];
      var y := col[|col| - 1];
      assert col == init + [y];
      CountsForTotal(ks, init);
      CountsForAdd(ks, multiset(init), y);
      NoDupsOccursOnce(ks, y);
    }
  }

  /** The counts of `value_counts()` add up to the number of rows. */
  lemma GroupCountsTotal<K(!new)>(t: Table, key: Record -> K)
    ensures SumCounts(GroupCounts(t, key)) == |t|
  {
    CountsForTotal(Distinct(Map(t, key)), Map(t, key));
  }

  /** Time Series page "Evolution of The Salary": the mean salary of the
      job's rows in each year, one pair per year, earliest first. The year
      selector plays no part. */
  function SalaryTrend(t: Table, job: string): (r: seq<(int, real)>)
    ensures |r| == |Elements(Map(JobScope(t, job), YearOf))|
    ensures forall p :: p in r ==> p.0 in Map(JobScope(t, job), YearOf) && p.1 == GroupAverage(JobScope(t, job), YearOf, p.0)
    ensures forall y :: y in Map(JobScope(t, job), YearOf) ==> (y, GroupAverage(JobScope(t, job), YearOf, y)) in r
    ensures forall i, j :: 0 <= i < j < |r| ==> r[i].0 < r[j].0
  {
    var g := GroupMeans(JobScope(t, job), YearOf);
    SortedGroups(g, NotLaterYear);
    var r := SortBy(g, NotLaterYear);
    assert forall i, j :: 0 <= i < j < |r| ==> r[i].0 < r[j].0 by {
      forall i, j | 0 <= i < j < |r| ensures r[i].0 < r[j].0 {
        assert NotLaterYear(r[i], r[j]);
      }
    }
    r
  }

  /** The two Home page cards: the number of distinct titles and the mean
      salary of the year scope (absent when the scope is empty). */
  datatype Cards = Cards(availableJobs: nat, averageSalary: Option<real>)

  function SummaryCards(t: Table, year: YearChoice): (c: Cards)
    ensures c.availableJobs == |Elements(Map(YearScope(t, year), Title))|
    ensures c.averageSalary.Some? <==> |YearScope(t, year)| > 0
    ensures c.averageSalary.Some? ==>
              IsMeanOf(c.averageSalary.value, Map(YearScope(t, year), Salary))
  {
    var scope := YearScope(t, year);
    Cards(CountDistinct(Map(scope, Title)), Mean(Map(scope, Salary)))
  }

  /** Over all years the job card counts exactly the titles the job menu
      offers besides "All". */
  lemma CardsMatchJobOptions(t: Table)
    ensures SummaryCards(t, AllYears).availableJobs == |InitialJobOptions(t)| - 1
  {
    var titles := SortedTitles(t);
    NoDupsCardinality(titles);
    assert Elements(titles) == Elements(Map(YearScope(t, AllYears), Title)) by {
      assert YearScope(t, AllYears) == t by {
        SubsequenceReflexive(t);
        WhereUnique(t, t, r => YearMatches(AllYears, r));
      }
    }
    assert InitialJobOptions(t)[1..] == titles;
  }

  /** On a prepared table the average-salary card lies within the trimming
      bounds. */
  lemma CardsWithinBounds(raw: seq<RawRecord>, lower: real, upper: real, year: YearChoice)
    ensures SummaryCards(Prepare(raw, lower, upper), year).averageSalary.Some? ==>
              lower <= SummaryCards(Prepare(raw, lower, upper), year).averageSalary.value < upper
  {
    var t := Prepare(raw, lower, upper);
    var xs := Map(YearScope(t, year), Salary);
    if |xs| > 0 {
      forall i | 0 <= i < |xs| ensures lower <= xs[i] as real < upper {
        assert YearScope(t, year)[i] in t;
      }
      AverageBounds(xs, lower, upper);
    }
  }
}
